=== FILE: README.md ===
# Brick Breaker game rules in Dafny

This project models the rules of a single-file Tkinter Brick Breaker game (`brick.py`). The
model covers the ball, the paddle, bricks with remaining hits, the level builder, the
per-tick collision resolver, and the state machine of score, lives, level and the
`started`/`paused` flags. The Tkinter canvas wrapper is removed. Every operation is a pure
function over immutable records, and canvas coordinates are exact Dafny `real`s.

Modules, one per file, leaf first:

- `Geometry` (`geometry.dfy`): the 720 x 520 field and axis-aligned boxes with a closed overlap test.
- `Bricks` (`bricks.dfy`): the brick record, the tier colour table with its fallback, and `Hit`.
- `Levels` (`levels.dfy`): the deterministic grid a level number produces.
- `Paddles` (`paddle.dfy`): `move_to` with its independent edge clamps, and arrow-key movement.
- `Balls` (`ball.dfy`): moving, the two bounces, and `set_speed`/`increase_speed`.
- `Collision` (`collision.dfy`): walls, paddle and the multi-brick loop. It also holds recursive reference definitions (struck count, destroyed count, points, survivors) that the loop is proved to match.
- `Game` (`game.dfy`): the session record, inputs, the tick, the event-driven run, and the session invariant `Valid`.

The tick needs some values that the program computes in floating point with trigonometry.
A `Physics` parameter supplies them:

- the paddle reflection components `speed*sin(angle)` and `speed*cos(angle)`;
- the factor `set_speed` scales the velocity by, which is the new speed over `hypot(vx, vy)`.

The ball's random launch velocity is a parameter of `NewGame` and `Restart`. Whether a tick
callback is still pending is the `scheduled` field. It is cleared when the game ends, because
`loop` returns before it calls `after` again.

Behaviour of the code worth knowing:

- **Paddle clamp.** `move_to` clamps the left edge to at least 0 and the right edge to at most the field width, each on its own; it does not slide the paddle to keep its width. Near a wall the paddle gets narrower while its stored `width` stays 110 (`MoveToNarrowsAtWall`). Repeated arrow presses against the left wall keep shrinking it towards 50 pixels (`KeyboardShrinksAtLeftWall`). A centre more than half a width beyond either wall leaves the left edge to the right of the right edge, with the paddle wholly outside the field (`MoveToInverts`, `MoveToInvertsLeft`). So the session invariant only promises that the edges are clamped (`EdgesClamped`), not that the paddle lies in the field.
- **Space key.** Space sets `started` even while paused, and even after game over. In the second case no tick is scheduled any more, so the ball is never launched and the score, lives, level and bricks stay as they are (`GameOverIsFinal`). The paddle still follows the mouse and the arrow keys. After P the unlaunched ball follows the paddle again, but only if Space was not pressed after game over: Space sets `started`, and a started ball never follows the mouse (`GameOverStillSteers`).
- **Ending the game.** The game ends when lives reach `<= 0`, not exactly `0`. A miss that ends the game returns before the level-clear check, so the level does not advance in that tick even if the field is empty (`TickMiss`).
- **Wall test.** The wall test ignores the direction of travel. A ball that still overlaps a side wall while already moving away from it is turned back (`WallTurnsDepartingBall`).
- **Paddle offset.** The offset into the reflection angle can exceed one half-width by the ball's radius, so the reflection angle can exceed 75 degrees (`PaddleOffsetBound` bounds the offset, `PaddleOffsetExceedsOne` exhibits a contact beyond one).

## Model

| member | source | states |
|---|---|---|
| Bricks.NewBrick | brick.py:28-38 | a new brick has the hits it was given and the table colour for them, centred on (x, y) |
| Bricks.Hit | brick.py:40-47 | hits drop by exactly one; destroyed iff the new count is <= 0; a survivor is recoloured for its new tier; position unchanged |
| Bricks.Award | brick.py:241 | a hit is worth 10 points exactly when it destroys the brick and 5 points exactly when the brick survives |
| Bricks.ColorOf | brick.py:26-32 | the fallback grey is chosen exactly for hit counts outside 1..3, and a tier gets its table colour |
| Bricks.TierColors | brick.py:26-32 | tiers 1, 2, 3 have three distinct colours and the grey fallback is used exactly outside 1..3 |
| Bricks.HitLiveBrick | brick.py:40-47 | on a brick with 1..3 hits, a hit destroys it iff it had one hit left; a survivor is again live, one tier lower |
| Levels.Row | brick.py:186-190 | a row has 8 bricks, column c being the layout brick for (level, row, c) |
| Levels.Grid | brick.py:185-190 | n rows give 8n bricks, brick i being the layout brick of row i / 8, column i % 8 |
| Levels.BuildLevel | brick.py:174-190 | a level has 8 * min(6, 3 + L) bricks (none for a negative row bound), brick i placed and toughened by (L, i / 8, i % 8) only |
| Levels.BrickCount | brick.py:179-186 | level 1 has 32 bricks, levels 1..3 have 8 * (3 + L), levels from 3 on have 48, levels below -2 have none |
| Levels.BuildLevelLive | brick.py:185-190 | from level 0 on a level is non-empty and every brick has 1..3 hits and its tier colour |
| Levels.RowHitsMonotone | brick.py:189 | brick toughness never decreases as row index plus level grows |
| Levels.LateLevelsAllTough | brick.py:189 | from level 4 on every brick needs three hits |
| Levels.LayoutWithinMargins | brick.py:179-188 | every brick lies between the 60-pixel side margins, and its top edge is at or below y = 50 |
| Paddles.NewPaddle | brick.py:54-62 | a new paddle is 110 wide and centred on the given point |
| Paddles.MoveTo | brick.py:65-70 | left edge is x - w/2 or 0 when that is negative, right edge is x + w/2 or the field width when that exceeds it; so the left edge is >= 0 and the right edge <= the field width, with no order between them; height and stored width unchanged |
| Paddles.KeyboardMove | brick.py:201-203 | an arrow move recentres on the old centre plus delta: when that centre is at least half a width from both walls the paddle is centred there at full width; the edges are always clamped; height and stored width are kept |
| Paddles.MoveToSlides | brick.py:65-70 | away from the walls the paddle keeps its full width and is centred on x |
| Paddles.MoveToNarrowsAtWall | brick.py:65-70 | within half a width of a wall the paddle comes out narrower than its stored width |
| Paddles.MoveToInverts | brick.py:65-70 | a centre more than half a width beyond the right wall puts the left edge right of the field and right of the right edge |
| Paddles.MoveToInvertsLeft | brick.py:65-70 | a centre more than half a width beyond the left wall puts the right edge left of the field and left of the left edge |
| Paddles.KeyboardShrinksAtLeftWall | brick.py:201-203 | a left arrow press against the left wall keeps x1 at 0 and moves x2 left, staying above 50 |
| Balls.NewBall | brick.py:77-89 | a new ball is 16 pixels square, centred on the given point, with the given launch velocity and speed 5 |
| Balls.Move | brick.py:91-92 | a move advances the centre by exactly (vx, vy), keeps the box's width and height, and keeps the velocity and speed |
| Balls.BounceX | brick.py:97-98 | the horizontal velocity changes sign; everything else is unchanged |
| Balls.BounceY | brick.py:100-101 | the vertical velocity changes sign; everything else is unchanged |
| Balls.BounceInvolutions | brick.py:97-101 | each bounce undoes itself and the two bounces commute |
| Balls.SetSpeed | brick.py:103-108 | the speed field becomes the new speed, the box is kept, the velocity stays parallel to the old one, and for a positive scale each component keeps its sign |
| Balls.IncreaseSpeed | brick.py:110-111 | the speed field grows by exactly delta |
| Balls.SetSpeedMagnitude | brick.py:103-108 | with scale = speed / hypot, the new velocity's length is the new speed and, for a positive speed, both component signs are kept |
| Collision.WallBounce | brick.py:219-223 | vx is negated iff the left edge <= 0 or the right edge >= the field width; vy is negated iff the top edge <= 0; the box is unchanged |
| Collision.WallBounceTwice | brick.py:219-223 | resolving the walls twice at the same position restores the velocity |
| Collision.WallSendsBallBack | brick.py:219-223 | a ball moving into the left, right or top wall leaves moving away from it; an untouched wall leaves its component alone |
| Collision.WallTurnsDepartingBall | brick.py:220-221 | a ball overlapping the left wall while moving right is turned left again |
| Collision.PaddleBounce | brick.py:225-233 | fires only on bottom >= paddle top, horizontal overlap and vy > 0, then sets vx to the reflected value and vy = -abs(...) <= 0; otherwise the ball is unchanged |
| Collision.PaddleBounceOnce | brick.py:226-233 | once reflected, a second paddle resolution at the same position changes nothing |
| Collision.PaddleOffsetBound | brick.py:225-230 | on contact the offset lies within one half-width plus the ball radius of the paddle centre, in half-widths |
| Collision.PaddleOffsetExceedsOne | brick.py:225-230 | a ball touching the right end of a full-width paddle has offset 58/55, more than one half-width |
| Collision.CollideBricks | brick.py:235-245 | the brick loop never lowers the score, never adds bricks and leaves vy equal to or opposite its old value |
| Collision.CollideBricksReference | brick.py:235-245 | the loop keeps exactly the survivors in order, adds exactly the struck bricks' points, and negates vy once per struck brick |
| Collision.PointsSplit | brick.py:240-241 | points are 10 per destroyed brick plus 5 per struck brick that survives |
| Collision.SurvivorsCount | brick.py:240-243 | the list shrinks by exactly the number of destroyed bricks |
| Collision.SurvivorsMembers | brick.py:236-245 | unstruck bricks stay, struck survivors stay with one hit less, and nothing else is in the list |
| Collision.SurvivorsLive | brick.py:236-245 | if every brick had 1..3 hits and its tier colour, every remaining brick still does |
| Collision.PointsMultipleOfFive | brick.py:241 | the points of a brick pass are a multiple of five |
| Collision.NothingStruck | brick.py:235-237 | when no brick overlaps the ball, the loop strikes nothing, scores nothing and keeps the list |
| Collision.CheckCollision | brick.py:218-245 | walls, then paddle, then bricks over the box read at the start: bricks become the survivors, the score grows by their points, vy is negated once per struck brick after the paddle step |
| Game.NewGame | brick.py:131-154 | a new session has score 0, level 1, 3 lives, both flags false, 32 bricks of level 1, and a ball of speed 5 with the given launch velocity, centred horizontally on the paddle, 60 above the bottom and above the paddle's top edge |
| Game.Restart | brick.py:213-215 | a restart gives score 0, level 1, 3 lives, both flags false, level 1's bricks, and a ball back at speed 5 with the given launch velocity, from any state |
| Game.StartBall | brick.py:205-208 | afterwards the game is started and nothing else changed |
| Game.TogglePause | brick.py:210-211 | paused flips and nothing else changes |
| Game.GameOver | brick.py:288-300 | started false, paused true, no further tick; score, lives, level, bricks, ball and paddle kept |
| Game.Park | brick.py:259-260 | the ball is centred on the paddle 60 pixels above the bottom, 16 pixels square, velocity kept |
| Game.MouseMove | brick.py:193-199 | the paddle is moved to the mouse position; before the start and unless paused, the ball's centre follows it horizontally only, its size, velocity and speed kept; otherwise the ball stays |
| Game.ArrowKey | brick.py:201-203 | only the paddle changes, and it becomes exactly the arrow move of the old paddle by delta |
| Game.Advance | brick.py:218-251 | the move plus collision step changes only ball, bricks and score: the ball moves one step, its vx is the wall-then-paddle result and its vy that result negated once per struck brick; the score grows by the struck bricks' points and the bricks become the survivors |
| Game.ClearLevel | brick.py:269-281 | with no brick left: level + 1, the new level's bricks, speed + 0.8, ball parked, not started; otherwise nothing changes |
| Game.Tick | brick.py:248-285 | a tick never lowers the score or moves the paddle; lives drop by at most one and level rises by at most one |
| Game.NewGameValid | brick.py:131-154 | a new session satisfies the invariant |
| Game.TickPreservesValid | brick.py:248-281 | a tick keeps: level >= 1, score a non-negative multiple of 5, lives in 0..3, a tick scheduled iff lives >= 1, bricks on the field while scheduled, every brick live, stored paddle width 110, paddle edges clamped |
| Game.ApplyPreservesValid | brick.py:163-168 | every input and every tick keeps the invariant |
| Game.RunPreservesValid | brick.py:163-170 | any sequence of inputs and ticks keeps the invariant |
| Game.InactiveTickIdle | brick.py:249 | when paused or not started, a tick changes nothing |
| Game.StartAndPauseLaws | brick.py:205-211 | start is idempotent and two pause toggles restore the session |
| Game.TickScores | brick.py:235-251 | an active tick adds exactly the points of the bricks the moved ball overlaps |
| Game.TickMiss | brick.py:253-261 | a miss costs exactly one life and unstarts the ball; at <= 0 lives the game is over with no further tick and no level advance; otherwise play continues to be scheduled |
| Game.TickMissParksBall | brick.py:259-261 | after a miss with lives left, the ball sits 60 above the bottom centred on the paddle |
| Game.TickLevelClear | brick.py:269-281 | emptying the field without losing the last life gives level + 1, strictly higher speed, the new level's 8 * rows bricks, the ball parked, not started; a miss in the same tick still costs its life |
| Game.TickInPlay | brick.py:248-252 | with no miss and bricks left, a tick is just the move and the collisions, and play stays active |
| Game.RunScoreMonotone | brick.py:241 | without a restart no sequence of inputs and ticks lowers the score |
| Game.GameOverIsFinal | brick.py:256-258 | after game over, no input sequence without a restart changes score, lives, level or bricks, or schedules a tick |
| Game.GameOverStillSteers | brick.py:193-211 | after any game over the mouse still moves the paddle and leaves the ball; after P the ball follows the paddle, but not if Space was pressed first |
| Game.RestartForgets | brick.py:213-215 | a restart's result does not depend on the state it was pressed in |

## Left out

- Tkinter plumbing is not modelled: canvas items, ids, tags, `coords`, text items (score, lives, level, instructions, game-over messages) and key bindings. Brick overlap is a closed box intersection over the brick list, visited in list order. That is the creation order, which is also the canvas stacking order `find_overlapping` reports.
- The background image is not modelled: loading it is file I/O.
- Scheduling is reduced to the `scheduled` flag. The 16 ms `after` cadence and `mainloop` are not modelled.
- Game.Restart: only the reset field values are modelled, not the scheduling. `restart` re-runs the constructor, which calls `loop` and so starts a second tick chain while the old `after(16, ...)` is still pending. Each later restart adds another chain. After a later game over one chain returns, but the other keeps rescheduling itself, so Space and then P resume play with 0 lives. The model has a single chain, so `GameOverIsFinal` and the invariant's `scheduled` iff `lives >= 1` hold only for a session that was never restarted while a tick was pending. A restart after game over finds no pending tick and starts exactly one chain.
- Balls.NewBall: the random launch angle in [30, 150] degrees and its cos/sin are not computed; the launch velocity is a parameter.
- Balls.SetSpeed: the `hypot` rescaling is a caller-supplied scale. The contract promises only that the new velocity is parallel to the old one, and for a positive scale that each component keeps its sign. The exact length holds under the hypothesis of `SetSpeedMagnitude`. The `ZeroDivisionError` a zero velocity would raise is not modelled.
- Game.Tick: the `rescale` factor of `Physics` is unconstrained, so after a level clear the model does not promise that the ball's velocity keeps its direction or has the new speed as its length.
- Collision.PaddleBounce: the angle `offset * 75 degrees` and its sin/cos are not computed; the reflected components are parameters, and only the sign rule `vy = -abs(...)` is kept. `PaddleOffset` is therefore not tied to `reflectX`/`reflectY`: the offset is modelled and bounded, but nothing states that the reflection is computed from it.
- Floating-point rounding is not modelled: canvas coordinates and velocities are exact reals.
- Paddles.EdgesClamped: Tk sorts a rectangle's corners, so for an inverted paddle `coords()` reports a box wholly outside the field. The paddle test in `check_collision` (brick.py:226) then reads that box. The model keeps the unsorted edges that `move_to` computes and does not model Tk's sorting.
- `Ball.position` is not modelled separately from the ball's box, and `GameObject.delete` has no counterpart. A destroyed brick simply leaves the list.

=== FILE: ball.dfy ===
/** The ball: a box, a velocity (vx, vy) in pixels per tick, and the scalar `speed` the
    velocity is meant to have. The launch angle and the rescaling by the velocity's length
    are floating-point computations; the model receives their results as parameters. */
module Balls {
  import opened Geometry

  const BallRadius: real := 8.0
  const BallSpeed: real := 5.0

  /** The radius is the constant `BallRadius`: it is set at creation and never read again. */
  datatype Ball = Ball(box: Box, vx: real, vy: real, speed: real)

  /** A new ball of the default radius and speed centred on (x, y); (vx, vy) is the launch
      velocity the random angle produced. */
  function NewBall(x: real, y: real, vx: real, vy: real): (b: Ball)
    ensures b.box.CentreX() == x && b.box.CentreY() == y
    ensures b.box.x2 - b.box.x1 == 2.0 * BallRadius && b.box.y2 - b.box.y1 == 2.0 * BallRadius
    ensures b.vx == vx && b.vy == vy && b.speed == BallSpeed
  {
    Ball(Around(x, y, BallRadius, BallRadius), vx, vy, BallSpeed)
  }

  /** One step along the velocity. */
  function Move(b: Ball): (r: Ball)
    ensures r.box.CentreX() == b.box.CentreX() + b.vx
    ensures r.box.CentreY() == b.box.CentreY() + b.vy
    ensures r.box.x2 - r.box.x1 == b.box.x2 - b.box.x1 && r.box.y2 - r.box.y1 == b.box.y2 - b.box.y1
    ensures r.vx == b.vx && r.vy == b.vy && r.speed == b.speed
  {
    b.(box := b.box.Shift(b.vx, b.vy))
  }

  /** Horizontal bounce: the horizontal component changes sign, nothing else changes. */
  function BounceX(b: Ball): (r: Ball)
    ensures r.vx + b.vx == 0.0 && r.vy == b.vy && r.box == b.box && r.speed == b.speed
  {
    b.(vx := -b.vx)
  }

  /** Vertical bounce: the vertical component changes sign, nothing else changes. */
  function BounceY(b: Ball): (r: Ball)
    ensures r.vy + b.vy == 0.0 && r.vx == b.vx && r.box == b.box && r.speed == b.speed
  {
    b.(vy := -b.vy)
  }

  /** Each bounce undoes itself. */
  lemma BounceInvolutions(b: Ball)
    ensures BounceX(BounceX(b)) == b
    ensures BounceY(BounceY(b)) == b
    ensures BounceX(BounceY(b)) == BounceY(BounceX(b))
  {
  }

  /** Set the target speed and scale the velocity by `scale`, the ratio of the new speed to
      the velocity's current length. */
  function SetSpeed(b: Ball, speed: real, scale: real): (r: Ball)
    ensures r.speed == speed && r.box == b.box
    ensures r.vx * b.vy == r.vy * b.vx
    ensures scale > 0.0 ==> (r.vx > 0.0 <==> b.vx > 0.0) && (r.vy > 0.0 <==> b.vy > 0.0)
  {
    b.(vx := b.vx * scale, vy := b.vy * scale, speed := speed)
  }

  /** Raise the target speed by `delta`, rescaling the velocity as `SetSpeed` does. */
  function IncreaseSpeed(b: Ball, delta: real, scale: real): (r: Ball)
    ensures r.speed == b.speed + delta && r.box == b.box
  {
    SetSpeed(b, b.speed + delta, scale)
  }

  /** With the scale computed from the velocity's true length, the new velocity has exactly
      the new speed as its length and points the same way. */
  lemma SetSpeedMagnitude(b: Ball, speed: real, len: real)
    requires len > 0.0 && len * len == b.vx * b.vx + b.vy * b.vy
    ensures var r := SetSpeed(b, speed, speed / len);
      r.vx * r.vx + r.vy * r.vy == speed * speed
    ensures speed > 0.0 ==> var r := SetSpeed(b, speed, speed / len);
      (r.vx > 0.0 <==> b.vx > 0.0) && (r.vy > 0.0 <==> b.vy > 0.0)
  {
  }
}

=== FILE: bricks.dfy ===
/** Bricks: fixed-size boxes with a remaining-hits counter whose fill colour is looked up
    by tier in a small table with a neutral fallback. */
module Bricks {
  import opened Geometry

  const BrickWidth: real := 75.0
  const BrickHeight: real := 20.0

  /** The tier table: remaining hits 1, 2 and 3 have their own colour. */
  const Colors: map<int, string> := map[1 := "#4535AA", 2 := "#ED639E", 3 := "#8FE1A2"]

  /** Colour of any hit count the table does not list. */
  const FallbackColor: string := "#CCCCCC"

  /** The table lookup with its default: each tier has its own colour, and every other hit
      count, zero and negative ones included, gets the fallback. */
  function ColorOf(hits: int): (c: string)
    ensures c == FallbackColor <==> !(1 <= hits <= 3)
    ensures 1 <= hits <= 3 ==> c == Colors[hits]
  {
    if hits in Colors then Colors[hits] else FallbackColor
  }

  /** A brick centred on (x, y), with its remaining hits and current fill. */
  datatype Brick = Brick(x: real, y: real, hits: int, fill: string) {

    function Box(): Box {
      Around(x, y, BrickWidth / 2.0, BrickHeight / 2.0)
    }

    /** The fill shown is the one its remaining hits call for. */
    predicate Consistent() {
      fill == ColorOf(hits)
    }

    /** A brick that belongs on the field: one to three hits left, coloured by tier. */
    predicate Live() {
      1 <= hits <= 3 && Consistent()
    }
  }

  /** A new brick, coloured from the table as the constructor does. */
  function NewBrick(x: real, y: real, hits: int): (b: Brick)
    ensures b.Consistent() && b.hits == hits
    ensures b.Box().CentreX() == x && b.Box().CentreY() == y
  {
    Brick(x, y, hits, ColorOf(hits))
  }

  /** Result of hitting a brick: the brick afterwards and whether it was destroyed. */
  datatype HitOutcome = HitOutcome(brick: Brick, destroyed: bool)

  /** One hit: the counter drops by one; at zero or below the brick is destroyed (its canvas
      item deleted, colour untouched), otherwise it is recoloured for its new tier. */
  function Hit(b: Brick): (r: HitOutcome)
    ensures r.brick.hits == b.hits - 1
    ensures r.destroyed <==> r.brick.hits <= 0
    ensures !r.destroyed ==> r.brick.Consistent()
    ensures r.brick.x == b.x && r.brick.y == b.y && r.brick.Box() == b.Box()
  {
    var hits := b.hits - 1;
    if hits <= 0 then HitOutcome(b.(hits := hits), true)
    else HitOutcome(b.(hits := hits, fill := ColorOf(hits)), false)
  }

  /** Points a hit is worth: 10 for destroying the brick, 5 for damaging it. */
  function Award(destroyed: bool): (p: nat)
    ensures p == 10 <==> destroyed
    ensures p == 5 <==> !destroyed
  {
    if destroyed then 10 else 5
  }

  /** The three tiers have three distinct colours, and the fallback is used exactly for
      hit counts outside the tiers. */
  lemma TierColors(hits: int)
    ensures ColorOf(hits) == FallbackColor <==> !(1 <= hits <= 3)
    ensures ColorOf(1) != ColorOf(2) && ColorOf(2) != ColorOf(3) && ColorOf(1) != ColorOf(3)
  {
  }

  /** On a live brick a hit destroys it exactly when it had one hit left; a survivor is
      again live, one tier lower. */
  lemma HitLiveBrick(b: Brick)
    requires b.Live()
    ensures Hit(b).destroyed <==> b.hits == 1
    ensures !Hit(b).destroyed ==> Hit(b).brick.Live() && Hit(b).brick.hits < b.hits
  {
  }
}

=== FILE: collision.dfy ===
/** Collision resolution for one tick, in its fixed order: walls, then paddle, then bricks.
    The ball's box is read once at the start and used by all three tests; only the velocity
    changes. Bricks are struck when their box and the ball's box intersect (closed test),
    and every struck brick of the tick is resolved, each flipping the vertical velocity. */
module Collision {
  import opened Geometry
  import opened Bricks
  import opened Paddles
  import opened Balls

  // ---------------------------------------------------------------- walls

  predicate TouchesSideWall(box: Box) {
    box.x1 <= 0.0 || box.x2 >= FieldWidth
  }

  predicate TouchesCeiling(box: Box) {
    box.y1 <= 0.0
  }

  /** Side walls flip the horizontal velocity, the ceiling the vertical one; the bottom is not
      a wall (it is where a life is lost). */
  function WallBounce(b: Ball): (r: Ball)
    ensures r.box == b.box && r.speed == b.speed
    ensures TouchesSideWall(b.box) ==> r.vx == -b.vx
    ensures !TouchesSideWall(b.box) ==> r.vx == b.vx
    ensures TouchesCeiling(b.box) ==> r.vy == -b.vy
    ensures !TouchesCeiling(b.box) ==> r.vy == b.vy
  {
    var b1 := if TouchesSideWall(b.box) then BounceX(b) else b;
    if TouchesCeiling(b.box) then BounceY(b1) else b1
  }

  /** Resolving the walls twice at the same position restores the velocity. */
  lemma WallBounceTwice(b: Ball)
    ensures WallBounce(WallBounce(b)) == b
  {
  }

  /** A ball running into a wall is sent back into the field, and a wall it does not touch
      leaves that component alone. */
  lemma WallSendsBallBack(b: Ball)
    ensures b.box.x1 <= 0.0 && b.vx < 0.0 ==> WallBounce(b).vx > 0.0
    ensures b.box.x2 >= FieldWidth && b.vx > 0.0 ==> WallBounce(b).vx < 0.0
    ensures b.box.y1 <= 0.0 && b.vy < 0.0 ==> WallBounce(b).vy > 0.0
    ensures !TouchesCeiling(b.box) ==> WallBounce(b).vy == b.vy
    ensures !TouchesSideWall(b.box) ==> WallBounce(b).vx == b.vx
  {
  }

  /** The wall test ignores the direction of travel: a ball still overlapping the left wall
      while already moving away from it is turned back towards it. */
  lemma WallTurnsDepartingBall(b: Ball)
    requires b.box.x1 <= 0.0 && b.vx > 0.0
    ensures WallBounce(b).vx < 0.0
  {
  }

  // ---------------------------------------------------------------- paddle

  /** The paddle test: the ball's bottom has reached the paddle's top, the horizontal extents
      meet, and the ball is moving down. Nothing bounds the ball's top against the paddle's
      bottom. */
  predicate PaddleContact(b: Ball, p: Paddle) {
    b.box.y2 >= p.box.y1 && b.box.x2 >= p.box.x1 && b.box.x1 <= p.box.x2 && b.vy > 0.0
  }

  function Abs(x: real): real {
    if x < 0.0 then -x else x
  }

  /** Paddle reflection. `reflectX` and `reflectY` are speed * sin(angle) and
      speed * cos(angle) for the angle the hit offset maps to; the model keeps the sign rule:
      the new vertical velocity is -|reflectY|, never downwards. */
  function PaddleBounce(b: Ball, p: Paddle, reflectX: real, reflectY: real): (r: Ball)
    ensures PaddleContact(b, p) ==> r.vx == reflectX && r.vy == -Abs(reflectY) && r.vy <= 0.0
    ensures !PaddleContact(b, p) ==> r == b
    ensures r.box == b.box && r.speed == b.speed
  {
    if PaddleContact(b, p) then b.(vx := reflectX, vy := -Abs(reflectY)) else b
  }

  /** After a paddle reflection the guard is closed, so resolving the paddle again in the same
      position changes nothing, whatever angle would be computed. */
  lemma PaddleBounceOnce(b: Ball, p: Paddle, x: real, y: real, x': real, y': real)
    ensures PaddleBounce(PaddleBounce(b, p, x, y), p, x', y') == PaddleBounce(b, p, x, y)
  {
  }

  /** Where on the paddle the ball struck, in half-widths of the stored width: 0 at the
      paddle's centre, the input of the reflection angle. */
  function PaddleOffset(b: Ball, p: Paddle): real
    requires p.width > 0.0
  {
    (b.box.CentreX() - p.box.CentreX()) / (p.width / 2.0)
  }

  /** The offset is not confined to [-1, 1]: on contact it is bounded only by one half-width
      plus the ball's radius, so the angle can exceed 75 degrees. */
  lemma PaddleOffsetBound(b: Ball, p: Paddle)
    requires p.width > 0.0 && p.box.x2 - p.box.x1 <= p.width
    requires b.box.x2 - b.box.x1 == 2.0 * BallRadius && PaddleContact(b, p)
    ensures -1.0 - BallRadius / (p.width / 2.0) <= PaddleOffset(b, p)
    ensures PaddleOffset(b, p) <= 1.0 + BallRadius / (p.width / 2.0)
  {
    var h := p.width / 2.0;
    var d := b.box.CentreX() - p.box.CentreX();
    var q := PaddleOffset(b, p);
    var m := 1.0 + BallRadius / h;
    assert -h - BallRadius <= d <= h + BallRadius;
    assert q * h == d;
    assert m * h == h + BallRadius;
    NonNegativeFactor(m - q, h);
    NonNegativeFactor(q + m, h);
  }

  /** A ball touching the right end of a full-width paddle strikes 58/55 half-widths from its
      centre: the offset, and so the reflection angle, leaves the nominal range. */
  lemma PaddleOffsetExceedsOne()
    ensures var p := Paddle(Box(305.0, 484.0, 415.0, 496.0), PaddleWidth);
      var b := Ball(Box(410.0, 470.0, 426.0, 486.0), 1.0, 2.0, BallSpeed);
      PaddleContact(b, p) && PaddleOffset(b, p) == 58.0 / 55.0 && PaddleOffset(b, p) > 1.0
  {
  }

  /** A product with a positive factor has the sign of the other factor. */
  lemma NonNegativeFactor(a: real, h: real)
    requires h > 0.0 && a * h >= 0.0
    ensures a >= 0.0
  {
  }

  // ---------------------------------------------------------------- bricks

  predicate Struck(b: Brick, area: Box) {
    Overlaps(b.Box(), area)
  }

  /** State the brick loop carries: bricks kept so far, score, vertical velocity. */
  datatype BrickPass = BrickPass(kept: seq<Brick>, score: int, vy: real)

  /** The brick loop: bricks are visited in list order, which is also the canvas stacking
      order `find_overlapping` reports. A struck brick is hit, scores 10 if destroyed and 5
      otherwise, stays in the list only if it survived, and flips the vertical velocity. */
  function CollideBricks(pending: seq<Brick>, area: Box, acc: BrickPass): (r: BrickPass)
    ensures r.score >= acc.score
    ensures |r.kept| <= |acc.kept| + |pending|
    ensures r.vy == acc.vy || r.vy == -acc.vy
    decreases |pending|
  {
    if |pending| == 0 then acc
    else
      var b := pending[0];
      if !Struck(b, area) then
        CollideBricks(pending[1..], area, acc.(kept := acc.kept + [b]))
      else
        var h := Hit(b);
        var kept := if h.destroyed then acc.kept else acc.kept + [h.brick];
        CollideBricks(pending[1..], area, BrickPass(kept, acc.score + Award(h.destroyed), -acc.vy))
  }

  // Reference definitions of what the loop achieves, each by plain recursion on the list.

  /** How many bricks the area strikes. */
  function StruckCount(bs: seq<Brick>, area: Box): nat {
    if |bs| == 0 then 0
    else (if Struck(bs[0], area) then 1 else 0) + StruckCount(bs[1..], area)
  }

  /** How many struck bricks the hit destroys. */
  function DestroyedCount(bs: seq<Brick>, area: Box): nat {
    if |bs| == 0 then 0
    else (if Struck(bs[0], area) && Hit(bs[0]).destroyed then 1 else 0) + DestroyedCount(bs[1..], area)
  }

  /** The points the struck bricks award. */
  function Points(bs: seq<Brick>, area: Box): nat {
    if |bs| == 0 then 0
    else (if Struck(bs[0], area) then Award(Hit(bs[0]).destroyed) else 0) + Points(bs[1..], area)
  }

  /** The list after the struck bricks are hit and the destroyed ones dropped. */
  function Survivors(bs: seq<Brick>, area: Box): seq<Brick> {
    if |bs| == 0 then []
    else if !Struck(bs[0], area) then [bs[0]] + Survivors(bs[1..], area)
    else if Hit(bs[0]).destroyed then Survivors(bs[1..], area)
    else [Hit(bs[0]).brick] + Survivors(bs[1..], area)
  }

  /** `v` negated `n` times. */
  function Negated(v: real, n: nat): real {
    if n % 2 == 0 then v else -v
  }

  /** The loop appends the survivors, adds the points and negates the vertical velocity once
      per struck brick. */
  lemma {:induction false} CollideBricksReference(pending: seq<Brick>, area: Box, acc: BrickPass)
    ensures CollideBricks(pending, area, acc)
         == BrickPass(acc.kept + Survivors(pending, area),
                      acc.score + Points(pending, area),
                      Negated(acc.vy, StruckCount(pending, area)))
    decreases |pending|
  {
    if |pending| == 0 {
      assert acc.kept + [] == acc.kept;
    } else {
      var b, rest := pending[0], pending[1..];
      if !Struck(b, area) {
        CollideBricksReference(rest, area, acc.(kept := acc.kept + [b]));
        assert acc.kept + [b] + Survivors(rest, area) == acc.kept + ([b] + Survivors(rest, area));
      } else {
        var h := Hit(b);
        var kept := if h.destroyed then acc.kept else acc.kept + [h.brick];
        CollideBricksReference(rest, area, BrickPass(kept, acc.score + Award(h.destroyed), -acc.vy));
        if !h.destroyed {
          assert acc.kept + [h.brick] + Survivors(rest, area) == acc.kept + ([h.brick] + Survivors(rest, area));
        }
      }
    }
  }

  /** Score: 10 per destroyed brick plus 5 per surviving struck brick. */
  lemma {:induction false} PointsSplit(bs: seq<Brick>, area: Box)
    ensures DestroyedCount(bs, area) <= StruckCount(bs, area)
    ensures Points(bs, area) == 10 * DestroyedCount(bs, area)
                              + 5 * (StruckCount(bs, area) - DestroyedCount(bs, area))
  {
    if |bs| > 0 {
      PointsSplit(bs[1..], area);
    }
  }

  /** Exactly the destroyed bricks leave the list. */
  lemma {:induction false} SurvivorsCount(bs: seq<Brick>, area: Box)
    ensures |Survivors(bs, area)| == |bs| - DestroyedCount(bs, area)
  {
    if |bs| > 0 {
      SurvivorsCount(bs[1..], area);
    }
  }

  /** Every brick the area misses stays, every struck brick that survives stays with one hit
      fewer, and nothing else is in the list. */
  lemma {:induction false} SurvivorsMembers(bs: seq<Brick>, area: Box)
    ensures forall i :: 0 <= i < |bs| && !Struck(bs[i], area) ==> bs[i] in Survivors(bs, area)
    ensures forall i :: 0 <= i < |bs| && Struck(bs[i], area) && !Hit(bs[i]).destroyed ==>
      Hit(bs[i]).brick in Survivors(bs, area)
    ensures forall s :: s in Survivors(bs, area) ==>
      exists i :: 0 <= i < |bs| &&
        ((!Struck(bs[i], area) && s == bs[i]) ||
         (Struck(bs[i], area) && !Hit(bs[i]).destroyed && s == Hit(bs[i]).brick))
  {
    if |bs| > 0 {
      var rest := bs[1..];
      SurvivorsMembers(rest, area);
      var sv := Survivors(bs, area);
      var tail := Survivors(rest, area);
      assert forall s :: s in tail ==> s in sv;
      forall i | 1 <= i < |bs|
        ensures bs[i] == rest[i - 1]
      {
      }
      forall s | s in sv
        ensures (exists i :: 0 <= i < |bs| &&
                   ((!Struck(bs[i], area) && s == bs[i]) ||
                    (Struck(bs[i], area) && !Hit(bs[i]).destroyed && s == Hit(bs[i]).brick)))
      {
        if s !in tail {
          assert (!Struck(bs[0], area) && s == bs[0]) ||
                 (Struck(bs[0], area) && !Hit(bs[0]).destroyed && s == Hit(bs[0]).brick);
        } else {
          var j :| 0 <= j < |rest| &&
            ((!Struck(rest[j], area) && s == rest[j]) ||
             (Struck(rest[j], area) && !Hit(rest[j]).destroyed && s == Hit(rest[j]).brick));
          assert bs[j + 1] == rest[j];
        }
      }
    }
  }

  /** A list of live bricks stays live: survivors keep one to three hits and their tier colour. */
  lemma {:induction false} SurvivorsLive(bs: seq<Brick>, area: Box)
    requires forall i :: 0 <= i < |bs| ==> bs[i].Live()
    ensures forall i :: 0 <= i < |Survivors(bs, area)| ==> Survivors(bs, area)[i].Live()
  {
    if |bs| > 0 {
      SurvivorsLive(bs[1..], area);
      HitLiveBrick(bs[0]);
    }
  }

  /** Points come in fives. */
  lemma PointsMultipleOfFive(bs: seq<Brick>, area: Box)
    ensures Points(bs, area) % 5 == 0
  {
  }

  /** Where the ball touches no brick, the brick loop changes nothing. */
  lemma {:induction false} NothingStruck(bs: seq<Brick>, area: Box)
    requires forall i :: 0 <= i < |bs| ==> !Struck(bs[i], area)
    ensures StruckCount(bs, area) == 0 && Points(bs, area) == 0 && Survivors(bs, area) == bs
  {
    if |bs| > 0 {
      NothingStruck(bs[1..], area);
      assert [bs[0]] + bs[1..] == bs;
    }
  }

  // ---------------------------------------------------------------- one collision step

  datatype CollisionOutcome = CollisionOutcome(ball: Ball, bricks: seq<Brick>, score: int)

  /** The whole collision step: walls, then paddle, then the brick loop over the box the ball
      occupied when the step began. */
  function CheckCollision(b: Ball, p: Paddle, bricks: seq<Brick>, score: int,
                          reflectX: real, reflectY: real): (r: CollisionOutcome)
    ensures r.ball.box == b.box && r.ball.speed == b.speed
    ensures r.bricks == Survivors(bricks, b.box)
    ensures r.score == score + Points(bricks, b.box)
    ensures r.ball.vx == PaddleBounce(WallBounce(b), p, reflectX, reflectY).vx
    ensures r.ball.vy == Negated(PaddleBounce(WallBounce(b), p, reflectX, reflectY).vy,
                                 StruckCount(bricks, b.box))
  {
    var w := WallBounce(b);
    var pb := PaddleBounce(w, p, reflectX, reflectY);
    var pass := CollideBricks(bricks, b.box, BrickPass([], score, pb.vy));
    CollideBricksReference(bricks, b.box, BrickPass([], score, pb.vy));
    assert [] + Survivors(bricks, b.box) == Survivors(bricks, b.box);
    CollisionOutcome(pb.(vy := pass.vy), pass.kept, pass.score)
  }
}

=== FILE: game.dfy ===
/** The game session: score, lives, level, the started/paused flags, the entities, and whether
    a tick is still scheduled. Every input and every tick is a pure transition on this record.
    A tick that ends the game returns before scheduling the next one, so from then on time
    passing changes nothing until a restart. */
module Game {
  import opened Geometry
  import opened Bricks
  import opened Levels
  import opened Paddles
  import opened Balls
  import opened Collision

  const StartLives: int := 3
  /** Speed added to the ball each time a level is cleared. */
  const SpeedStep: real := 0.8
  /** How far above the bottom of the field the ball waits, centred on the paddle. */
  const ParkLift: real := 60.0

  datatype Game = Game(score: int, level: int, lives: int, started: bool, paused: bool,
                       ball: Ball, paddle: Paddle, bricks: seq<Brick>, scheduled: bool)

  /** The floating-point results a tick may need: the paddle reflection's components
      speed * sin(angle) and speed * cos(angle), and the factor `set_speed` scales the velocity
      by (new speed over the velocity's length). */
  datatype Physics = Physics(reflectX: real, reflectY: real, rescale: real)

  /** A fresh session; (vx, vy) is the ball's random launch velocity. */
  function NewGame(vx: real, vy: real): (g: Game)
    ensures g.score == 0 && g.level == 1 && g.lives == 3 && !g.started && !g.paused
    ensures g.scheduled && |g.bricks| == 32 && g.bricks == BuildLevel(1)
    ensures g.ball.box.CentreX() == g.paddle.box.CentreX() == FieldWidth / 2.0
    ensures g.ball.box.y2 < g.paddle.box.y1
    ensures g.ball.box.CentreY() == FieldHeight - ParkLift
    ensures g.ball.speed == BallSpeed && g.ball.vx == vx && g.ball.vy == vy
  {
    Game(0, 1, StartLives, false, false,
         NewBall(FieldWidth / 2.0, FieldHeight - ParkLift, vx, vy),
         NewPaddle(FieldWidth / 2.0, FieldHeight - 30.0),
         BuildLevel(1), true)
  }

  /** Restarting discards the whole session for a fresh one, whatever state it was in. */
  function Restart(g: Game, vx: real, vy: real): (r: Game)
    ensures r.score == 0 && r.level == 1 && r.lives == StartLives && !r.started && !r.paused
    ensures r.scheduled && r.bricks == BuildLevel(1)
    ensures r.ball.speed == BallSpeed && r.ball.vx == vx && r.ball.vy == vy
  {
    NewGame(vx, vy)
  }

  /** Space: set `started` if it is not set yet; nothing else changes, not even `paused`. */
  function StartBall(g: Game): (r: Game)
    ensures r.started && r == g.(started := true)
  {
    if !g.started then g.(started := true) else g
  }

  /** P: flip `paused`. */
  function TogglePause(g: Game): (r: Game)
    ensures r.paused != g.paused && r == g.(paused := r.paused)
  {
    g.(paused := !g.paused)
  }

  /** The end of the game: the ball stops and the tick is not scheduled again. */
  function GameOver(g: Game): (r: Game)
    ensures !r.started && r.paused && !r.scheduled
    ensures r.score == g.score && r.lives == g.lives && r.level == g.level && r.bricks == g.bricks
    ensures r.ball == g.ball && r.paddle == g.paddle
  {
    g.(started := false, paused := true, scheduled := false)
  }

  /** The ball placed 60 pixels above the bottom, centred on the paddle, 16 pixels square. */
  function Park(b: Ball, p: Paddle): (r: Ball)
    ensures r.box.CentreX() == p.box.CentreX() && r.box.CentreY() == FieldHeight - ParkLift
    ensures r.box.x2 - r.box.x1 == 2.0 * BallRadius && r.box.y2 - r.box.y1 == 2.0 * BallRadius
    ensures r.vx == b.vx && r.vy == b.vy && r.speed == b.speed
  {
    b.(box := Around(p.box.CentreX(), FieldHeight - ParkLift, BallRadius, BallRadius))
  }

  /** Mouse motion: recentre the paddle; before the start, and unless paused, the ball
      follows horizontally so that it stays centred on the paddle. */
  function MouseMove(g: Game, x: real): (r: Game)
    ensures r.paddle == MoveTo(g.paddle, x)
    ensures !g.started && !g.paused ==> r.ball.box.CentreX() == r.paddle.box.CentreX()
    ensures !g.started && !g.paused ==> r.ball.box.CentreY() == g.ball.box.CentreY()
    ensures g.started || g.paused ==> r.ball == g.ball
    ensures r == g.(paddle := r.paddle, ball := r.ball)
    ensures r.ball == g.ball.(box := r.ball.box)
    ensures r.ball.box.x2 - r.ball.box.x1 == g.ball.box.x2 - g.ball.box.x1
    ensures r.ball.box.y2 - r.ball.box.y1 == g.ball.box.y2 - g.ball.box.y1
  {
    var p := MoveTo(g.paddle, x);
    if !g.started && !g.paused then
      g.(paddle := p, ball := g.ball.(box := g.ball.box.Shift(p.box.CentreX() - g.ball.box.CentreX(), 0.0)))
    else g.(paddle := p)
  }

  /** Arrow key: move the paddle by `delta` from its centre; the ball does not follow. */
  function ArrowKey(g: Game, delta: real): (r: Game)
    ensures r == g.(paddle := KeyboardMove(g.paddle, delta))
  {
    g.(paddle := KeyboardMove(g.paddle, delta))
  }

  /** Ticks do something only while the ball is started and not paused. */
  predicate Active(g: Game) {
    g.scheduled && g.started && !g.paused
  }

  /** The first half of an active tick: the ball moves one step, then collisions resolve. */
  function Advance(g: Game, phys: Physics): (r: Game)
    ensures r == g.(ball := r.ball, bricks := r.bricks, score := r.score)
    ensures r.score == g.score + Points(g.bricks, Move(g.ball).box)
    ensures r.bricks == Survivors(g.bricks, Move(g.ball).box)
    ensures r.ball.box == Move(g.ball).box && r.ball.speed == g.ball.speed
    ensures r.ball.vx == PaddleBounce(WallBounce(Move(g.ball)), g.paddle, phys.reflectX, phys.reflectY).vx
    ensures r.ball.vy == Negated(PaddleBounce(WallBounce(Move(g.ball)), g.paddle, phys.reflectX, phys.reflectY).vy,
                                 StruckCount(g.bricks, Move(g.ball).box))
  {
    var c := CheckCollision(Move(g.ball), g.paddle, g.bricks, g.score, phys.reflectX, phys.reflectY);
    g.(ball := c.ball, bricks := c.bricks, score := c.score)
  }

  /** The ball's bottom edge has reached the bottom of the field. */
  predicate Missed(g: Game) {
    g.ball.box.y2 >= FieldHeight
  }

  /** An empty field: next level, faster ball, fresh bricks, ball parked, wait for start. */
  function ClearLevel(g: Game, phys: Physics): (r: Game)
    ensures |g.bricks| > 0 ==> r == g
    ensures |g.bricks| == 0 ==> r.level == g.level + 1 && r.bricks == BuildLevel(g.level + 1)
    ensures |g.bricks| == 0 ==> !r.started && r.ball.speed == g.ball.speed + SpeedStep
    ensures |g.bricks| == 0 ==> r.ball.box == Park(g.ball, g.paddle).box
    ensures r.score == g.score && r.lives == g.lives && r.paddle == g.paddle
    ensures r.scheduled == g.scheduled && r.paused == g.paused
  {
    if |g.bricks| == 0 then
      var level := g.level + 1;
      g.(level := level,
         ball := Park(IncreaseSpeed(g.ball, SpeedStep, phys.rescale), g.paddle),
         bricks := BuildLevel(level),
         started := false)
    else g
  }

  /** One tick. Inactive: nothing changes. Active: advance; then, if the ball is past the
      bottom, lose a life and either end the game (returning at once) or park the ball; then,
      in the same tick and not as an alternative, clear the level if no brick is left. */
  function Tick(g: Game, phys: Physics): (r: Game)
    ensures r.score >= g.score && r.paddle == g.paddle
    ensures r.lives == g.lives || r.lives == g.lives - 1
    ensures r.level == g.level || r.level == g.level + 1
  {
    if !Active(g) then g
    else
      var a := Advance(g, phys);
      if Missed(a) then
        var lost := a.(lives := a.lives - 1);
        if lost.lives <= 0 then GameOver(lost)
        else ClearLevel(lost.(ball := Park(lost.ball, lost.paddle), started := false), phys)
      else ClearLevel(a, phys)
  }

  // ---------------------------------------------------------------- events

  /** The inputs the window delivers, and the scheduled tick. */
  datatype Event =
    | TickEvent(phys: Physics)
    | SpaceKey
    | PauseKey
    | RestartKey(vx: real, vy: real)
    | MouseMotion(x: real)
    | Arrow(delta: real)

  function Apply(g: Game, e: Event): Game {
    match e
    case TickEvent(phys) => Tick(g, phys)
    case SpaceKey => StartBall(g)
    case PauseKey => TogglePause(g)
    case RestartKey(vx, vy) => Restart(g, vx, vy)
    case MouseMotion(x) => MouseMove(g, x)
    case Arrow(delta) => ArrowKey(g, delta)
  }

  function Run(g: Game, es: seq<Event>): Game
    decreases |es|
  {
    if |es| == 0 then g else Run(Apply(g, es[0]), es[1..])
  }

  predicate NoRestart(es: seq<Event>) {
    forall i :: 0 <= i < |es| ==> !es[i].RestartKey?
  }

  // ---------------------------------------------------------------- invariant

  /** What every reachable session satisfies. */
  predicate Valid(g: Game) {
    && g.level >= 1
    && g.score >= 0 && g.score % 5 == 0
    && 0 <= g.lives <= StartLives
    && (g.scheduled <==> g.lives >= 1)
    && (g.scheduled ==> |g.bricks| > 0)
    && (forall i :: 0 <= i < |g.bricks| ==> g.bricks[i].Live())
    && g.paddle.EdgesClamped() && g.paddle.width == PaddleWidth
  }

  lemma NewGameValid(vx: real, vy: real)
    ensures Valid(NewGame(vx, vy))
  {
  }

  /** Ticks keep the invariant: bricks stay live, score stays a non-negative multiple of five,
      lives stay in 0..3, a running game always has bricks on the field. */
  lemma TickPreservesValid(g: Game, phys: Physics)
    requires Valid(g)
    ensures Valid(Tick(g, phys))
  {
    if Active(g) {
      var area := Move(g.ball).box;
      var a := Advance(g, phys);
      SurvivorsLive(g.bricks, area);
      PointsMultipleOfFive(g.bricks, area);
      BuildLevelLive(g.level + 1);
      assert a.score >= 0 && a.score % 5 == 0;
      assert forall i :: 0 <= i < |a.bricks| ==> a.bricks[i].Live();
      if Missed(a) {
        var lost := a.(lives := a.lives - 1);
        if lost.lives > 0 {
          var parked := lost.(ball := Park(lost.ball, lost.paddle), started := false);
          assert Tick(g, phys) == ClearLevel(parked, phys);
        }
      } else {
        assert Tick(g, phys) == ClearLevel(a, phys);
      }
    }
  }

  lemma ApplyPreservesValid(g: Game, e: Event)
    requires Valid(g)
    ensures Valid(Apply(g, e))
  {
    match e
    case TickEvent(phys) => TickPreservesValid(g, phys);
    case RestartKey(vx, vy) => NewGameValid(vx, vy);
    case _ =>
  }

  lemma {:induction false} RunPreservesValid(g: Game, es: seq<Event>)
    requires Valid(g)
    ensures Valid(Run(g, es))
    decreases |es|
  {
    if |es| > 0 {
      ApplyPreservesValid(g, es[0]);
      RunPreservesValid(Apply(g, es[0]), es[1..]);
    }
  }

  // ---------------------------------------------------------------- tick properties

  /** Paused, or not started: a tick changes nothing. */
  lemma InactiveTickIdle(g: Game, phys: Physics)
    requires g.paused || !g.started
    ensures Tick(g, phys) == g
  {
  }

  /** Space pressed twice is space pressed once; pause pressed twice restores the flag. */
  lemma StartAndPauseLaws(g: Game)
    ensures StartBall(StartBall(g)) == StartBall(g)
    ensures TogglePause(TogglePause(g)) == g
  {
  }

  /** An active tick adds the points of the bricks the moved ball strikes. */
  lemma TickScores(g: Game, phys: Physics)
    requires Active(g)
    ensures Tick(g, phys).score == g.score + Points(g.bricks, Move(g.ball).box)
  {
  }

  /** A miss costs exactly one life. With the last life gone the game ends at once: flags set,
      no further tick, and the level is not advanced even if the field is empty. */
  lemma TickMiss(g: Game, phys: Physics)
    requires Active(g) && Missed(Advance(g, phys))
    ensures Tick(g, phys).lives == g.lives - 1
    ensures !Tick(g, phys).started
    ensures g.lives <= 1 ==> Tick(g, phys).paused && !Tick(g, phys).scheduled
    ensures g.lives <= 1 ==> Tick(g, phys).level == g.level
    ensures g.lives <= 1 ==> Tick(g, phys).bricks == Advance(g, phys).bricks
    ensures g.lives > 1 ==> Tick(g, phys).scheduled && !Tick(g, phys).paused
  {
  }

  /** After a miss that leaves lives, the ball waits 60 pixels above the bottom, centred on
      the paddle, with its velocity unchanged. */
  lemma TickMissParksBall(g: Game, phys: Physics)
    requires Active(g) && Missed(Advance(g, phys)) && g.lives > 1
    ensures Tick(g, phys).ball.box.CentreX() == g.paddle.box.CentreX()
    ensures Tick(g, phys).ball.box.CentreY() == FieldHeight - ParkLift
    ensures |Advance(g, phys).bricks| > 0 ==>
      Tick(g, phys).ball.vx == Advance(g, phys).ball.vx && Tick(g, phys).ball.vy == Advance(g, phys).ball.vy
  {
  }

  /** Emptying the field (without losing the last life in the same tick) moves to the next
      level: level + 1, ball speed + 0.8, the next level's bricks, ball parked, not started. */
  lemma TickLevelClear(g: Game, phys: Physics)
    requires Active(g) && |Advance(g, phys).bricks| == 0
    requires !Missed(Advance(g, phys)) || g.lives > 1
    ensures Tick(g, phys).level == g.level + 1
    ensures Tick(g, phys).ball.speed == g.ball.speed + SpeedStep > g.ball.speed
    ensures Tick(g, phys).bricks == BuildLevel(g.level + 1)
    ensures |Tick(g, phys).bricks| == 8 * RowCount(g.level + 1)
    ensures !Tick(g, phys).started && Tick(g, phys).scheduled
    ensures Tick(g, phys).ball.box.CentreX() == g.paddle.box.CentreX()
    ensures Tick(g, phys).ball.box.CentreY() == FieldHeight - ParkLift
    ensures Tick(g, phys).lives == if Missed(Advance(g, phys)) then g.lives - 1 else g.lives
  {
  }

  /** With no miss and bricks left, a tick is just the move and the collisions. */
  lemma TickInPlay(g: Game, phys: Physics)
    requires Active(g) && !Missed(Advance(g, phys)) && |Advance(g, phys).bricks| > 0
    ensures Tick(g, phys) == Advance(g, phys)
    ensures Active(Tick(g, phys)) && Tick(g, phys).level == g.level && Tick(g, phys).lives == g.lives
  {
  }

  // ---------------------------------------------------------------- runs

  /** Without a restart the score never goes down. */
  lemma {:induction false} RunScoreMonotone(g: Game, es: seq<Event>)
    requires NoRestart(es)
    ensures Run(g, es).score >= g.score
    decreases |es|
  {
    if |es| > 0 {
      assert !es[0].RestartKey?;
      RunScoreMonotone(Apply(g, es[0]), es[1..]);
    }
  }

  /** Game over is final until a restart: whatever keys are pressed and however much time
      passes, score, lives, level and bricks stay as they were and no tick is scheduled. */
  lemma {:induction false} GameOverIsFinal(g: Game, es: seq<Event>)
    requires !g.scheduled && NoRestart(es)
    ensures var r := Run(g, es);
      !r.scheduled && r.score == g.score && r.lives == g.lives && r.level == g.level && r.bricks == g.bricks
    decreases |es|
  {
    if |es| > 0 {
      assert !es[0].RestartKey?;
      GameOverIsFinal(Apply(g, es[0]), es[1..]);
    }
  }

  /** Game over does not freeze the inputs. The mouse still moves the paddle and leaves the
      ball where it is; once P clears the pause flag the unlaunched ball follows the paddle
      again, unless Space was pressed after game over, which set `started` for good. */
  lemma GameOverStillSteers(g: Game, x: real)
    ensures MouseMove(GameOver(g), x).paddle == MoveTo(g.paddle, x)
    ensures MouseMove(GameOver(g), x).ball == g.ball
    ensures MouseMove(TogglePause(GameOver(g)), x).ball.box.CentreX() == MoveTo(g.paddle, x).box.CentreX()
    ensures MouseMove(TogglePause(StartBall(GameOver(g))), x).ball == g.ball
  {
  }

  /** A restart yields a fresh session whatever came before. */
  lemma RestartForgets(g: Game, h: Game, vx: real, vy: real)
    ensures Restart(g, vx, vy) == Restart(h, vx, vy) == NewGame(vx, vy)
  {
  }
}

=== FILE: geometry.dfy ===
/** Canvas geometry shared by every entity of the game: the playing field's size and
    axis-aligned boxes in Tk canvas coordinates (y grows downwards). Coordinates are
    Dafny `real`s, which are exact, so the linear box arithmetic has no rounding. */
module Geometry {

  /** Width and height of the canvas, the default arguments of the game's constructor. */
  const FieldWidth: real := 720.0
  const FieldHeight: real := 520.0

  /** A canvas item's bounding box: (x1, y1) is the top-left corner, (x2, y2) the bottom-right. */
  datatype Box = Box(x1: real, y1: real, x2: real, y2: real) {

    function CentreX(): real {
      (x1 + x2) / 2.0
    }

    function CentreY(): real {
      (y1 + y2) / 2.0
    }

    /** The box moved by (dx, dy), as a canvas `move` does. */
    function Shift(dx: real, dy: real): (r: Box)
      ensures r.x2 - r.x1 == x2 - x1 && r.y2 - r.y1 == y2 - y1
      ensures r.CentreX() == CentreX() + dx && r.CentreY() == CentreY() + dy
    {
      Box(x1 + dx, y1 + dy, x2 + dx, y2 + dy)
    }
  }

  /** The box of half-extents (hw, hh) centred on (cx, cy). */
  function Around(cx: real, cy: real, hw: real, hh: real): (r: Box)
    ensures r.CentreX() == cx && r.CentreY() == cy
    ensures r.x2 - r.x1 == 2.0 * hw && r.y2 - r.y1 == 2.0 * hh
  {
    Box(cx - hw, cy - hh, cx + hw, cy + hh)
  }

  /** Closed axis-aligned intersection: boxes that merely touch overlap. */
  predicate Overlaps(a: Box, b: Box) {
    a.x1 <= b.x2 && b.x1 <= a.x2 && a.y1 <= b.y2 && b.y1 <= a.y2
  }
}

=== FILE: levels.dfy ===
/** The level builder: a deterministic grid of bricks computed from the level number alone.
    Rebuilding a level discards every brick of the previous one, so the builder is a
    function of the level and nothing else. */
module Levels {
  import opened Geometry
  import opened Bricks

  const Cols: nat := 8
  const MaxRows: int := 6
  const MarginX: real := 60.0
  const TopY: real := 60.0
  const RowSpacing: real := 26.0

  /** Horizontal pitch of the columns: the field minus both margins, shared by the columns. */
  const SpacingX: real := (FieldWidth - 2.0 * MarginX) / Cols as real

  /** How many rows `range(min(6, 3 + level))` visits: a negative bound visits none. */
  function RowCount(level: int): nat {
    var rows := if 3 + level < MaxRows then 3 + level else MaxRows;
    if rows < 0 then 0 else rows
  }

  /** Hits of every brick in row `r` of a level: min(3, 1 + (r + level) // 2). The divisor
      is positive, and for a positive divisor Dafny's `/` floors as Python's `//` does. */
  function RowHits(level: int, r: int): int {
    var h := 1 + (r + level) / 2;
    if h < 3 then h else 3
  }

  /** The brick in row `r`, column `c` of a level. */
  function Layout(level: int, r: nat, c: nat): Brick {
    NewBrick(MarginX + SpacingX * c as real + SpacingX / 2.0, TopY + r as real * RowSpacing, RowHits(level, r))
  }

  /** Row `r` of a level, left to right. */
  function Row(level: int, r: nat): (bs: seq<Brick>)
    ensures |bs| == Cols
    ensures forall c :: 0 <= c < Cols ==> bs[c] == Layout(level, r, c)
  {
    seq(Cols, c requires 0 <= c => Layout(level, r, c))
  }

  /** The first `rows` rows of a level, row by row; brick `i` sits in row i / 8, column i % 8. */
  function Grid(level: int, rows: nat): (bs: seq<Brick>)
    ensures |bs| == Cols * rows
    ensures forall i :: 0 <= i < |bs| ==> bs[i] == Layout(level, i / Cols, i % Cols)
  {
    if rows == 0 then []
    else
      var prefix := Grid(level, rows - 1);
      var last := Row(level, rows - 1);
      var bs := prefix + last;
      assert forall i :: Cols * (rows - 1) <= i < Cols * rows ==>
          i / Cols == rows - 1 && i % Cols == i - Cols * (rows - 1);
      bs
  }

  /** The bricks of a level, in the order they are created. */
  function BuildLevel(level: int): (bs: seq<Brick>)
    ensures |bs| == Cols * RowCount(level)
    ensures forall i :: 0 <= i < |bs| ==> bs[i] == Layout(level, i / Cols, i % Cols)
  {
    Grid(level, RowCount(level))
  }

  /** Level 1 has 32 bricks, each level adds a row of 8 until the cap of 6 rows (48 bricks)
      is reached at level 3; a level below -2 has none. */
  lemma BrickCount(level: int)
    ensures 1 <= level <= 3 ==> |BuildLevel(level)| == 8 * (3 + level)
    ensures level >= 3 ==> |BuildLevel(level)| == 48
    ensures level >= -2 ==> |BuildLevel(level)| == 8 * (if 3 + level < 6 then 3 + level else 6)
    ensures level <= -3 ==> |BuildLevel(level)| == 0
  {
  }

  /** From level 0 on every brick of a fresh level is live: one to three hits, tier colour. */
  lemma BuildLevelLive(level: int)
    requires level >= 0
    ensures |BuildLevel(level)| > 0
    ensures forall i :: 0 <= i < |BuildLevel(level)| ==> BuildLevel(level)[i].Live()
  {
  }

  /** Toughness grows with row index and with level, both through their sum. */
  lemma RowHitsMonotone(level: int, r: int, level': int, r': int)
    requires r + level <= r' + level'
    ensures RowHits(level, r) <= RowHits(level', r')
  {
  }

  /** From level 4 on every brick needs three hits. */
  lemma LateLevelsAllTough(level: int)
    requires level >= 4
    ensures forall i :: 0 <= i < |BuildLevel(level)| ==> BuildLevel(level)[i].hits == 3
  {
  }

  /** Every brick lies inside the side margins, and its top edge is at or below y = 50 (the
      first row's centre less half a brick height). */
  lemma LayoutWithinMargins(level: int, r: nat, c: nat)
    requires c < Cols
    ensures var b := Layout(level, r, c).Box();
      MarginX <= b.x1 && b.x2 <= FieldWidth - MarginX && TopY - BrickHeight / 2.0 <= b.y1
  {
  }
}

=== FILE: paddle.dfy ===
/** The paddle: a box at a fixed height with a stored nominal width. Moving it clamps each
    horizontal edge to the field on its own, so near a wall the paddle gets narrower instead
    of sliding to a stop, while the stored width never changes. */
module Paddles {
  import opened Geometry

  const PaddleWidth: real := 110.0
  const PaddleHeight: real := 12.0

  datatype Paddle = Paddle(box: Box, width: real) {

    /** Each edge is clamped on its own side: the left edge is not left of 0 and the right
        edge is not right of the field width. Nothing orders the two edges, so a paddle moved
        far past a wall has x1 > x2 and can lie wholly outside the field. */
    predicate EdgesClamped() {
      0.0 <= box.x1 && box.x2 <= FieldWidth
    }
  }

  /** A new paddle of the default size centred on (x, y). */
  function NewPaddle(x: real, y: real): (p: Paddle)
    ensures p.width == PaddleWidth && p.box.x2 - p.box.x1 == PaddleWidth
    ensures p.box.CentreX() == x && p.box.CentreY() == y
  {
    Paddle(Around(x, y, PaddleWidth / 2.0, PaddleHeight / 2.0), PaddleWidth)
  }

  /** Recentre the paddle on `x`: the left edge is max(0, x - width/2) and the right edge
      min(field width, x + width/2), each clamped independently. */
  function MoveTo(p: Paddle, x: real): (r: Paddle)
    ensures r.EdgesClamped()
    ensures x - p.width / 2.0 >= 0.0 ==> r.box.x1 == x - p.width / 2.0
    ensures x - p.width / 2.0 < 0.0 ==> r.box.x1 == 0.0
    ensures x + p.width / 2.0 <= FieldWidth ==> r.box.x2 == x + p.width / 2.0
    ensures x + p.width / 2.0 > FieldWidth ==> r.box.x2 == FieldWidth
    ensures r.box.y1 == p.box.y1 && r.box.y2 == p.box.y2 && r.width == p.width
  {
    var half := p.width / 2.0;
    var x1 := if 0.0 < x - half then x - half else 0.0;
    var x2 := if FieldWidth < x + half then FieldWidth else x + half;
    p.(box := Box(x1, p.box.y1, x2, p.box.y2))
  }

  /** Arrow-key movement: recentre on the current centre shifted by `delta`. */
  function KeyboardMove(p: Paddle, delta: real): (r: Paddle)
    ensures r.EdgesClamped() && r.width == p.width
    ensures p.width / 2.0 <= p.box.CentreX() + delta <= FieldWidth - p.width / 2.0 ==>
      r.box.CentreX() == p.box.CentreX() + delta && r.box.x2 - r.box.x1 == p.width
    ensures r.box.y1 == p.box.y1 && r.box.y2 == p.box.y2
  {
    MoveTo(p, p.box.CentreX() + delta)
  }

  /** Away from the walls the paddle keeps its full width and is centred exactly on `x`. */
  lemma MoveToSlides(p: Paddle, x: real)
    requires p.width / 2.0 <= x <= FieldWidth - p.width / 2.0
    ensures MoveTo(p, x).box.CentreX() == x
    ensures MoveTo(p, x).box.x2 - MoveTo(p, x).box.x1 == p.width
  {
  }

  /** Closer to a wall than half its width, a paddle that fits the field comes out narrower
      than its stored width. */
  lemma MoveToNarrowsAtWall(p: Paddle, x: real)
    requires 0.0 < p.width <= FieldWidth
    requires x < p.width / 2.0 || x > FieldWidth - p.width / 2.0
    ensures MoveTo(p, x).box.x2 - MoveTo(p, x).box.x1 < p.width
  {
  }

  /** Recentred more than half a width beyond the right wall, the left edge ends up to the
      right of the right edge. */
  lemma MoveToInverts(p: Paddle, x: real)
    requires p.width >= 0.0 && x - p.width / 2.0 > FieldWidth
    ensures MoveTo(p, x).box.x1 > FieldWidth
    ensures MoveTo(p, x).box.x1 > MoveTo(p, x).box.x2
  {
  }

  /** Recentred more than half a width beyond the left wall, the right edge ends up left of
      the field and left of the left edge. */
  lemma MoveToInvertsLeft(p: Paddle, x: real)
    requires p.width >= 0.0 && x + p.width / 2.0 < 0.0
    ensures MoveTo(p, x).box.x2 < 0.0
    ensures MoveTo(p, x).box.x1 > MoveTo(p, x).box.x2
  {
  }

  /** Pressing left against the left wall keeps shrinking the paddle: each press recentres on
      a point left of half a width, so the right edge moves left while the left edge stays 0. */
  lemma KeyboardShrinksAtLeftWall(p: Paddle)
    requires p.width == PaddleWidth && p.box.x1 == 0.0 && 50.0 < p.box.x2 <= PaddleWidth
    ensures KeyboardMove(p, -30.0).box.x1 == 0.0
    ensures KeyboardMove(p, -30.0).box.x2 < p.box.x2
    ensures KeyboardMove(p, -30.0).box.x2 > 50.0
  {
  }
}
